=== FILE: README.md ===
# codeverter core, modelled in Dafny

codeverter converts code between frameworks and languages. It does this by asking a chat-completion
model. The pure logic inside its plumbing has three pieces, and this project models each one and
proves properties of it.

1. **The streamed-delta filter.** This is `onParse` inside `OpenAIChatStream`, in
   `src/routes/api/generate/+server.ts`. It turns the server-sent events of the completion stream into
   the text chunks the endpoint sends back.
   - Module `ChatStream` models it as a fold (`Run`) of a one-event step (`Step`) over already-parsed
     events.
   - The stream state is `Open(counter) | Closed | Errored`.
   - The same module has the imperative form: `OnParse` handles one event and `Pump` feeds events to
     it.
   - An independent reference describes the output without the counter: `Settled(Deltas(...))` of the
     events before the first ending payload.
   - `EmitMatchesSettled` and `Pump` prove that the handler emits exactly that.
2. **The three prompt registries.** Each maps the same eleven target keys (`Templates.Target`) to a
   template that splices the user's input between a fixed prefix and a fixed suffix
   (`Templates.Template`, `Templates.Apply`).
   - `Templates.Strip` is the inverse of `Apply`.
   - `ServerQuery` models the table of the generate endpoint.
   - `LibQuery` models `src/lib/query.ts`, whose `createQueryFn` puts a guard header in front of every
     template and which also lists a label, icon and syntax language per entry.
   - `HelperQuery` models `src/helpers/query.ts`. This second copy of the endpoint's table differs from
     it only in the vue3 entry.
   - The instruction texts are transcribed character for character, tabs and trailing spaces included.
3. **The object helpers of `src/helpers/object.ts`.** `ObjectHelpers.Get` and `ObjectHelpers.ObjectKeys`
   work over a finite map.

There is no fallback target for an unknown type name. A name that is neither one of the eleven own keys
nor a member inherited from `Object.prototype` makes `options[type]` undefined, and calling it throws.
`Templates.Lookup` and `ServerQuery.GenerateQueryByName` model the own keys only: they yield `None` for
every other name, inherited names included (see "Left out"). There are no request parameters and no model choice either: the
endpoint always sends the chosen template's prompt, with nothing else in it.

The newline rule of the filter is modelled as the code states it. `text.match(/\n/)` succeeds when the
delta *contains* a line feed anywhere, not only when it is one. So within the two-chunk window, a delta
such as `"a\nb"` is dropped along with blank lines. `ChatStream.ContainsNotOnlyNewline` shows this on a
concrete input.

## Model

| member | source | states |
|---|---|---|
| ChatStream.Step | src/routes/api/generate/+server.ts:166-190 | A closed or errored stream ignores every event. `[DONE]` closes an open stream; an unparseable payload or one without `choices[0]` errors it; neither emits. A chunk is emitted exactly when the stream is open, the content is present and non-empty, and the counter is at least 2 or the text has no line feed. The chunk is the content verbatim, and the counter goes up by one. Otherwise an open stream keeps its state. |
| ChatStream.StepWhileOpen | src/routes/api/generate/+server.ts:167-185 | For an open stream and an event that does not end it, the step either emits the delta and counts it, or leaves the state unchanged, according to the window rule. |
| ChatStream.OnParse | src/routes/api/generate/+server.ts:166-190 | The imperative handler for one event, written as the source branches (event type, `[DONE]`, envelope failure, the `!text` and newline guard, then enqueue and count). It produces the same next state and chunk as one step. |
| ChatStream.Run | src/routes/api/generate/+server.ts:152-199 | Feeding events in arrival order leaves a stream that is not open exactly as it was, with nothing emitted. While the stream stays open, the counter equals the number of chunks emitted. |
| ChatStream.ChunksNonEmpty | src/routes/api/generate/+server.ts:179-185 | No emitted chunk is ever the empty string. |
| ChatStream.RunAppend | src/routes/api/generate/+server.ts:194-199 | Handling two batches of events one after the other is the same as handling their concatenation. The chunks of the second batch are appended to those of the first. |
| ChatStream.SilentEventInvisible | src/routes/api/generate/+server.ts:167-182 | An event of another type, or a delta whose content is missing or empty, can be removed from any position without changing the final state or the chunks. |
| ChatStream.EndingPayloadFreezes | src/routes/api/generate/+server.ts:170-188 | After `[DONE]`, an unparseable payload or an envelope without `choices[0]`, the chunks emitted before stay and nothing more is ever emitted. An open stream ends closed on `[DONE]` and errored otherwise; a stream already ended stays as it was. |
| ChatStream.EmittedNeverRetracted | src/routes/api/generate/+server.ts:183-185 | The output for a prefix of the events is a prefix of the output for all of them. |
| ChatStream.NewlineDeltasDropped | src/routes/api/generate/+server.ts:179-182 | While fewer than two chunks are out, any number of deltas that contain a line feed are all dropped, and the counter does not move. |
| ChatStream.PassThroughAfterWindow | src/routes/api/generate/+server.ts:179-185 | Once two chunks are out, every non-empty delta is emitted verbatim, in arrival order, and counted. |
| ChatStream.SettledSnoc | src/routes/api/generate/+server.ts:179-185 | In the reference description, one more delta reaches the output exactly when it has no line feed or at least two deltas already did. This is the counter test restated over the output. |
| ChatStream.OpenRunSettles | src/routes/api/generate/+server.ts:166-199 | On events none of which ends the stream, a fresh stream stays open and emits exactly the settled deltas, with the counter equal to their number. |
| ChatStream.StoppedRunSettles | src/routes/api/generate/+server.ts:170-188 | When an ending payload follows non-ending events, the output is the settled deltas of the events before it. The stream ends closed on `[DONE]` and errored otherwise, whatever follows. |
| ChatStream.EmitMatchesSettled | src/routes/api/generate/+server.ts:166-199 | For every event sequence, a fresh stream emits the settled deltas of the events before the first ending payload. It ends open with that many chunks counted if there is no such payload, closed if it is `[DONE]`, and errored otherwise. |
| ChatStream.Pump | src/routes/api/generate/+server.ts:194-199 | Feeding the events one at a time to the handler yields the state and chunks of the fold. The chunks are the settled deltas of the events before the first ending payload. |
| ChatStream.DropText | src/routes/api/generate/+server.ts:179-182 | Within the window, one more delta containing a line feed leaves the state and output unchanged. |
| ChatStream.KeepText | src/routes/api/generate/+server.ts:179-185 | One more non-empty delta that is past the window, or has no line feed, is appended to the output and counted. |
| ChatStream.BlankPreambleSuppressed | src/routes/api/generate/+server.ts:179-182 | The deltas `"\n"`, `"\n"`, `"Hello"`, `" world"` come out as `"Hello"`, `" world"`. |
| ChatStream.ContainsNotOnlyNewline | src/routes/api/generate/+server.ts:179 | The deltas `"Hi"`, `"a\nb"`, `"c"`, `"d\n"` come out as `"Hi"`, `"c"`, `"d\n"`. The second is lost because it contains a line feed; the fourth passes because the window has closed. |
| Templates.Apply | src/routes/api/generate/+server.ts:8-33 | Every template literal is its prefix, then the input verbatim at the prefix's end, then its suffix, so the prompt's length is the sum of the three. |
| Templates.Lookup | src/routes/api/generate/+server.ts:36-37 | Indexing a registry by a runtime name finds the target whose key is that name, and nothing for any other name; only own keys are modelled, not inherited `Object.prototype` members. |
| Templates.AllTargetsEnumerates | src/lib/query.ts:21-116 | The eleven keys in declaration order list every target exactly once. |
| Templates.StripInvertsApply | src/routes/api/generate/+server.ts:7-34 | Stripping a template's prefix and suffix from a string gives `input` exactly when the string is that template's prompt for `input`. |
| Templates.ApplyInjective | src/routes/api/generate/+server.ts:7-34 | Distinct inputs give distinct prompts. |
| Templates.OpenedPrompt | src/helpers/query.ts:3-31 | A template whose prefix is a lead, a body and a line break frames every input. The lead opens the prompt; the input starts a line of its own and is followed only by the suffix. |
| Templates.FramedPrompt | src/lib/query.ts:15-19 | The same layout behind a fixed header, which then opens the prompt with the lead right after it. |
| Templates.Diverging | src/helpers/query.ts:9-12 | Two instruction bodies that differ at some position give different prompts for every input. |
| ServerQuery.Options | src/routes/api/generate/+server.ts:7-34 | The endpoint's table: one template per key, the opening words and the instruction, a line break, the input, then the trailer. It has no ensures; `ServerQuery.QueryLayout`, `ServerQuery.RecoverInput` and `ServerQuery.TailwindEndsWithWhitespace` state its shape. |
| ServerQuery.GenerateQuery | src/routes/api/generate/+server.ts:36-38 | `generateQuery`: the key's template applied to the input. It has no ensures; its properties are stated by `ServerQuery.QueryLayout`, `ServerQuery.RecoverInput`, `ServerQuery.QueryContainsInput`, `ServerQuery.PlainTargetsEndWithInput` and `ServerQuery.TailwindEndsWithWhitespace`. |
| ServerQuery.Trailer | src/routes/api/generate/+server.ts:23-28 | What follows the input is empty except for tailwind, where it is tab and line-feed whitespace only. |
| ServerQuery.QueryLayout | src/routes/api/generate/+server.ts:7-38 | Every prompt starts with `Convert the following `. The input starts a line of its own and is followed only by the target's trailer. |
| ServerQuery.GenerateQueryByName | src/routes/api/generate/+server.ts:36-37 | With the type given as a runtime string, a prompt exists exactly when the string is one of the eleven keys, and it is that key's prompt; inherited `Object.prototype` names are not modelled. |
| ServerQuery.RecoverInput | src/routes/api/generate/+server.ts:7-37 | The input can be read back from the prompt, so no two inputs give the same prompt for a target. |
| ServerQuery.QueryContainsInput | src/routes/api/generate/+server.ts:7-37 | The input occurs verbatim in every prompt. |
| ServerQuery.PlainTargetsEndWithInput | src/routes/api/generate/+server.ts:8-33 | For every target except tailwind, the prompt is the fixed prefix followed by the input, so it ends with the raw input. |
| ServerQuery.TailwindEndsWithWhitespace | src/routes/api/generate/+server.ts:23-28 | The tailwind prompt ends with the input followed by the trailer, and every character after the input is a tab or a line feed. |
| HelperQuery.Options | src/helpers/query.ts:3-31 | The helper's copy of the table, built the same way as the endpoint's. It has no ensures; `HelperQuery.AgreesWithEndpointOutsideVue3` and `HelperQuery.Vue3DiffersFromEndpoint` relate it to the endpoint's table. |
| HelperQuery.GenerateQuery | src/helpers/query.ts:33-35 | `generateQuery`: the key's template applied to the input. It has no ensures; its properties are stated by `HelperQuery.QueryLayout`, `HelperQuery.RecoverInput`, `HelperQuery.QueryContainsInput`, `HelperQuery.PlainTargetsEndWithInput` and `HelperQuery.TailwindEndsWithWhitespace`. |
| HelperQuery.Trailer | src/helpers/query.ts:20-25 | What follows the input is the same as in the endpoint's table for every target: empty except for tailwind. |
| HelperQuery.QueryLayout | src/helpers/query.ts:3-35 | Every output starts with `Convert the following `, with no guard header. The input starts a line of its own and is followed only by the target's trailer. |
| HelperQuery.RecoverInput | src/helpers/query.ts:33-35 | The input can be read back from the output, so no two inputs give the same output for a target. |
| HelperQuery.QueryContainsInput | src/helpers/query.ts:3-35 | The input occurs verbatim in every output. |
| HelperQuery.PlainTargetsEndWithInput | src/helpers/query.ts:4-30 | For every target except tailwind, the output is the fixed prefix followed by the input. |
| HelperQuery.TailwindEndsWithWhitespace | src/helpers/query.ts:20-25 | The tailwind output ends with the input followed by the trailer, and every character after the input is a tab or a line feed. |
| HelperQuery.AgreesWithEndpointOutsideVue3 | src/helpers/query.ts:3-31 | For every target except vue3, this table gives the same prompt as the endpoint's table. |
| HelperQuery.Vue3DiffersFromEndpoint | src/helpers/query.ts:9-12 | For vue3 the two tables give different prompts for every input, and this copy's prompt is the longer one. |
| HelperQuery.Vue3TextsDiverge | src/helpers/query.ts:10 | The two vue3 instructions first part after `<script setup>`: this copy continues with `.`, the endpoint's with `:`, and this copy's instruction is the longer one. |
| LibQuery.CreateQueryFn | src/lib/query.ts:15-19 | The wrapped template yields the guard header followed by the wrapped template's own output, for every input. |
| LibQuery.QueryOptions | src/lib/query.ts:21-116 | The `queryOptions` registry: label, icon, language, and the inner template wrapped by `createQueryFn`. It has no ensures; `LibQuery.GuardWrapsInner` and `LibQuery.QueryLayout` state the shape of its queries. |
| LibQuery.GenerateQuery | src/lib/query.ts:120-122 | `generateQuery`: the entry's query applied to the input. It has no ensures; its properties are stated by `LibQuery.QueryLayout`, `LibQuery.GuardWrapsInner`, `LibQuery.RecoverInput`, `LibQuery.QueryContainsInput`, `LibQuery.PlainTargetsEndWithInput` and `LibQuery.TailwindEndsWithParen`. |
| LibQuery.Trailer | src/lib/query.ts:86-90 | What follows the input is empty except for tailwind. |
| LibQuery.Inner | src/lib/query.ts:26-114 | Every entry's inner template opens with `Convert the following ` and ends its prefix with a line break. |
| LibQuery.QueryLayout | src/lib/query.ts:120-122 | Every query starts with the guard header, followed at once by `Convert the following `. The input starts a line of its own and is followed only by the target's trailer. |
| LibQuery.GuardWrapsInner | src/lib/query.ts:15-19 | Every query is the guard header, whose last line is `  Commands:`, followed by the output of the entry's inner template. |
| LibQuery.RecoverInput | src/lib/query.ts:120-122 | The input can be read back from the query, so no two inputs give the same query for a target. |
| LibQuery.QueryContainsInput | src/lib/query.ts:15-114 | The input occurs verbatim in every query. |
| LibQuery.PlainTargetsEndWithInput | src/lib/query.ts:26-114 | For every target except tailwind, the query ends with the raw, unescaped input. |
| LibQuery.TailwindEndsWithParen | src/lib/query.ts:86-89 | The tailwind query ends with the input followed by a single `)`. |
| LibQuery.LangsOf | src/lib/query.ts:118 | Mapping entries to their languages keeps length and order: position i holds the language of entry i. |
| LibQuery.Languages | src/lib/query.ts:118 | `languages` has one language per registry entry, in declaration order. |
| LibQuery.LanguagesRepeat | src/lib/query.ts:21-118 | The list has eleven entries, and duplicates stay: `vue`, `ts` and `css` each occur twice. |
| ObjectHelpers.Get | src/helpers/object.ts:5-8 | The result is the stored value when the key is present, and absent (`null`) exactly when the key is not. |
| ObjectHelpers.ObjectKeys | src/helpers/object.ts:1-3 | Every key of the map, standing for the object's own enumerable string-keyed properties, is listed, and only those keys. There are no repeats, as many entries as keys, and `get` of each listed key returns its stored value. |

## Left out

- SSE frame reassembly is done by the external `eventsource-parser` package, so the model starts from
  already-parsed events. Its source is not part of this model.
- `JSON.parse` and the provider's response envelope are abstracted into `ChatStream.Payload`:
  - the `[DONE]` sentinel;
  - text that does not parse;
  - an envelope without `choices[0]` (any `TypeError` in the `try`);
  - the optional `choices[0].delta.content`.
- A `content` that is present, truthy and not a string is not modelled. While the counter is below 2,
  `text.match` fails on it inside the `try`, and the stream is errored. From the third chunk on, the
  window test short-circuits before `text.match`. `encoder.encode` then turns the value into a string
  (`5` becomes `"5"`, an object `"[object Object]"`), which is enqueued and counted.
- Network and runtime plumbing is left out:
  - `fetch`, `ReadableStream` and the controller;
  - `TextEncoder`/`TextDecoder`;
  - the API key, the request payload constants and `console.log`;
  - the `POST` handler.
- The controller is reduced to the calls `onParse` makes on it. A chunk counts as "emitted" when it is
  passed to a `controller.enqueue` call that returns normally, that is, one made while the stream is
  open. After a close or an error, the model emits nothing more and keeps its state. In the source, a
  delta that passes the filter after `[DONE]` still reaches `enqueue`, but that call throws and
  delivers nothing. `ChatStream.EmittedNeverRetracted`, `ChatStream.EndingPayloadFreezes` and the other stream
  lemmas are about these `enqueue` calls, not about what the reader of the stream receives. The
  runtime's own behaviour under the WHATWG Streams standard is not modelled:
  - `controller.error` discards chunks that were enqueued but not yet read.
  - After `[DONE]`, a later delta that passes the filter makes `enqueue` throw. The `catch` then calls
    `controller.error`, which can turn a close that is still pending into an error and drop the unread
    chunks.
  - A second `[DONE]` makes `close()` throw outside the `try`. The same happens for a `[DONE]` after an
    error. The exception escapes `parser.feed` and ends the read loop.
  - After `[DONE]`, an unparseable payload, or one without `choices[0]`, calls `controller.error`
    directly in the `catch`. This can also turn a close that is still pending into an error and drop the
    unread chunks.
- `OpenAITextStream` (the text-completion variant) is not modelled. `POST` never calls it.
- `src/helpers/stream.ts`, `src/helpers/store.ts`, the stores, `clickOutside` and the example
  components are outside the core.
- Templates.Lookup: only the eleven own keys of the registry are modelled. `options[type]` also finds
  members inherited from `Object.prototype`, and calling most of them does not throw. `"toString"`
  gives the prompt `"[object Object]"`, `"constructor"` gives the bare input wrapped by `Object`,
  `"valueOf"` gives the table itself and `"hasOwnProperty"` a boolean. Some inherited names do throw:
  `"__proto__"` finds `Object.prototype`, which cannot be called, and `"__defineGetter__"` and
  `"__defineSetter__"` reject an argument that is not a function. The model yields `None` for all of
  these names.
- ServerQuery.GenerateQueryByName: promises a prompt exactly for the eleven own keys. The inherited
  `Object.prototype` names, which the source also accepts, are left out for the reason given under
  `Templates.Lookup`.
- ServerQuery.GenerateQuery: takes `input` and the type name as strings. In the source both come
  unchecked from `request.json()`. JavaScript's conversion of other JSON values is not modelled:
  `${input}` turns any value into text (a missing `input` becomes `undefined`, `5` becomes `5`), and
  `options[type]` turns a non-string `type` into a property key (`["react"]` finds the react entry).
  The same holds for `ServerQuery.GenerateQueryByName`, `HelperQuery.GenerateQuery` and
  `LibQuery.GenerateQuery`, whose callers may pass any value.
- ObjectHelpers.Get: JavaScript's `in` also sees keys inherited through the prototype chain. A Dafny map
  has own keys only.
- ObjectHelpers.ObjectKeys: the map stands for the object's own enumerable string-keyed properties.
  `Object.keys` omits symbol keys and non-enumerable own properties, which `in` still sees: `get` of an
  array and `"length"` finds a value, but `objectKeys` of the array lists only its indices. So "every
  key is listed" holds only for the properties the map stands for. The order of the list is left open.
  `Object.keys` lists integer-like keys first, in ascending order, then the other string keys in
  insertion order, and a Dafny map has no order.
- The totality and determinism of each `generateQuery` over the eleven keys are not stated as lemmas.
  Every Dafny function is total on its domain and deterministic.
- Labels and icon names of `src/lib/query.ts` are transcribed (`LibQuery.Caption`, `LibQuery.Icon`), but
  no property is stated about them.

=== FILE: base.dfy ===
/**
 Small shared vocabulary: an optional value (standing in for JavaScript's
 `null`/`undefined`) and the string relations used to say where a template
 places its input.
 */
module Base {

  /** A value that may be absent. */
  datatype Option<+T> = None | Some(value: T)

  /** `needle` occurs in `hay` starting at position `i`. */
  predicate OccursAt(needle: string, hay: string, i: int)
  {
    0 <= i && i + |needle| <= |hay| && hay[i..i + |needle|] == needle
  }

  /** `needle` occurs somewhere in `hay`, verbatim. */
  ghost predicate Contains(hay: string, needle: string)
  {
    exists i :: OccursAt(needle, hay, i)
  }

  /** `hay` ends with `tail`. */
  predicate EndsWith(hay: string, tail: string)
  {
    |tail| <= |hay| && hay[|hay| - |tail|..] == tail
  }

  /**
   Putting `head` in front of a string keeps everything found in it: each
   occurrence moves right by `|head|`, and its ending is unchanged.
   */
  lemma BehindHead(head: string, s: string)
    ensures head <= head + s
    ensures forall needle, i :: OccursAt(needle, s, i) ==> OccursAt(needle, head + s, |head| + i)
    ensures forall tail :: EndsWith(s, tail) ==> EndsWith(head + s, tail)
  {
    forall needle, i | OccursAt(needle, s, i)
      ensures OccursAt(needle, head + s, |head| + i)
    {
      assert (head + s)[|head| + i..|head| + i + |needle|] == s[i..i + |needle|];
    }
    forall tail | EndsWith(s, tail)
      ensures EndsWith(head + s, tail)
    {
      assert (head + s)[|head + s| - |tail|..] == s[|s| - |tail|..];
    }
  }

  /** The characters of a string's ending, position by position. */
  lemma EndsWithAt(hay: string, tail: string)
    requires EndsWith(hay, tail)
    ensures forall i :: 0 <= i < |tail| ==> hay[|hay| - |tail| + i] == tail[i]
  {
    forall i | 0 <= i < |tail|
      ensures hay[|hay| - |tail| + i] == tail[i]
    {
      assert hay[|hay| - |tail|..][i] == tail[i];
    }
  }

  /** The prefix of length `k + 1` is the prefix of length `k` with the `k`-th element appended. */
  lemma PrefixSnoc<T>(xs: seq<T>, k: nat)
    requires k < |xs|
    ensures xs[..k] + [xs[k]] == xs[..k + 1]
    ensures xs[..0] == [] && xs[..|xs|] == xs
  {
    assert xs[..k + 1] == xs[..k] + [xs[k]];
  }

  /** Dropping the last element of `a + b`, for a non-empty `b`, drops it from `b`. */
  lemma AppendInit<T>(a: seq<T>, b: seq<T>)
    requires b != []
    ensures (a + b)[..|a + b| - 1] == a + b[..|b| - 1]
    ensures (a + b)[|a + b| - 1] == b[|b| - 1]
  {
    assert (a + b)[..|a + b| - 1] == a + b[..|b| - 1];
  }

  /** Every element of a sequence occurs once. */
  predicate Distinct<T(==)>(xs: seq<T>)
  {
    forall i, j :: 0 <= i < j < |xs| ==> xs[i] != xs[j]
  }
}

=== FILE: chat_stream.dfy ===
/**
 The delta filter of the chat completion stream (`onParse` inside
 `OpenAIChatStream`, `src/routes/api/generate/+server.ts`). Server-sent events
 arrive already parsed; the handler turns them into the text chunks the
 endpoint streams back:
 - a `[DONE]` payload closes the stream;
 - a payload that is not JSON, or has no `choices[0]`, errors the stream;
 - a delta whose `content` is missing or empty is skipped;
 - while fewer than two chunks have been emitted, a delta that contains a
   newline anywhere is dropped;
 - every other delta is emitted verbatim and counted.
 A closed or errored stream accepts no further chunks.
 */
module ChatStream {
  import opened Base

  /**
   What the handler reads from one data payload: the `[DONE]` sentinel, text
   `JSON.parse` rejects, an envelope without `choices[0]`, or the optional
   `choices[0].delta.content`.
   */
  datatype Payload = DoneSentinel | Unparseable | NoChoice | Choice(content: Option<string>)

  /** A parsed server-sent event: a data event, or anything of another type. */
  datatype Event = NonEvent | Data(payload: Payload)

  /** The output stream: open with the count of chunks emitted so far, closed, or errored. */
  datatype StreamState = Open(counter: nat) | Closed | Errored

  /** What one event does: the next state and the chunk emitted, if any. */
  datatype Reaction = Reaction(next: StreamState, chunk: Option<string>)

  /** The state after a run of events and the chunks emitted along the way, in order. */
  datatype Trace = Trace(state: StreamState, chunks: seq<string>)

  /** Below this many emitted chunks, deltas that contain a newline are dropped. */
  const LeadingWindow: nat := 2

  /** `text.match(/\n/)` finds something: the text contains a line feed anywhere. */
  predicate HasNewline(text: string)
  {
    '\n' in text
  }

  /** The event carries a payload that ends the stream: the sentinel or an unreadable envelope. */
  predicate Ends(ev: Event)
  {
    ev.Data? && !ev.payload.Choice?
  }

  /** The delta text an event offers for emission: its content when present and non-empty. */
  function DeltaOf(ev: Event): seq<string>
  {
    match ev
    case Data(Choice(Some(text))) => if text == "" then [] else [text]
    case _ => []
  }

  /**
   The handler's reaction to one event. A closed or errored stream ignores
   everything; an open stream closes on the sentinel, errors on an unreadable
   envelope, and emits a delta exactly when it is non-empty and either the
   window has passed or the delta has no newline, counting each emission.
   */
  function Step(st: StreamState, ev: Event): (r: Reaction)
    ensures !st.Open? ==> r == Reaction(st, None)
    ensures st.Open? && Ends(ev) ==> r.chunk.None? && r.next == (if ev.payload.DoneSentinel? then Closed else Errored)
    ensures st.Open? && !Ends(ev) ==> r.next.Open?
    ensures r.chunk.Some? <==>
      st.Open? && DeltaOf(ev) != [] && (st.counter >= LeadingWindow || !HasNewline(DeltaOf(ev)[0]))
    ensures r.chunk.Some? ==> DeltaOf(ev) == [r.chunk.value] && r.next == Open(st.counter + 1)
    ensures r.chunk.None? && r.next.Open? ==> r.next == st
  {
    match st
    case Closed => Reaction(st, None)
    case Errored => Reaction(st, None)
    case Open(counter) =>
      match ev
      case NonEvent => Reaction(st, None)
      case Data(DoneSentinel) => Reaction(Closed, None)
      case Data(Unparseable) => Reaction(Errored, None)
      case Data(NoChoice) => Reaction(Errored, None)
      case Data(Choice(content)) =>
        if content.None? || content.value == "" || (counter < LeadingWindow && HasNewline(content.value))
        then Reaction(st, None)
        else Reaction(Open(counter + 1), content)
  }

  /** The chunk of a reaction as a sequence of zero or one chunks. */
  function Emitted(r: Reaction): seq<string>
  {
    if r.chunk.Some? then [r.chunk.value] else []
  }

  /**
   The events fed to the handler in arrival order, starting from `start`.
   A stream that is not open stays as it is and emits nothing; while it stays
   open its counter grows by exactly the number of chunks emitted.
   */
  function Run(start: StreamState, evs: seq<Event>): (t: Trace)
    ensures !start.Open? ==> t == Trace(start, [])
    ensures start.Open? && t.state.Open? ==> t.state.counter == start.counter + |t.chunks|
    decreases |evs|
  {
    if evs == [] then Trace(start, [])
    else
      var prev := Run(start, evs[..|evs| - 1]);
      var r := Step(prev.state, evs[|evs| - 1]);
      Trace(r.next, prev.chunks + Emitted(r))
  }

  /** No chunk is ever empty: empty deltas are skipped. */
  lemma {:induction false} ChunksNonEmpty(start: StreamState, evs: seq<Event>)
    ensures forall i :: 0 <= i < |Run(start, evs).chunks| ==> Run(start, evs).chunks[i] != ""
    decreases |evs|
  {
    if evs != [] {
      ChunksNonEmpty(start, evs[..|evs| - 1]);
    }
  }

  /** The chunks a fresh stream emits for `evs`. */
  function Emit(evs: seq<Event>): seq<string>
  {
    Run(Open(0), evs).chunks
  }

  /** Running two batches of events one after the other is running their concatenation. */
  lemma {:induction false} RunAppend(start: StreamState, a: seq<Event>, b: seq<Event>)
    ensures var mid := Run(start, a);
      Run(start, a + b) == Trace(Run(mid.state, b).state, mid.chunks + Run(mid.state, b).chunks)
    decreases |b|
  {
    var mid := Run(start, a);
    if b == [] {
      assert a + b == a;
    } else {
      AppendInit(a, b);
      RunAppend(start, a, b[..|b| - 1]);
    }
  }

  /** A single event runs as one step. */
  lemma RunOne(start: StreamState, e: Event)
    ensures Run(start, [e]) == Trace(Step(start, e).next, Emitted(Step(start, e)))
  {
    assert [e][..0] == [];
  }

  /** Feeding one more event to a run applies one step to where the run ended. */
  lemma RunSnoc(start: StreamState, evs: seq<Event>, e: Event)
    ensures var prev := Run(start, evs);
      Run(start, evs + [e]) == Trace(Step(prev.state, e).next, prev.chunks + Emitted(Step(prev.state, e)))
  {
    assert (evs + [e])[..|evs|] == evs;
  }

  /**
   An event that is neither a data event that ends the stream nor one with
   delta text (an event of another type, a missing or empty `content`) changes
   nothing: removing it leaves the state and the chunks as they were.
   */
  lemma SilentEventInvisible(start: StreamState, a: seq<Event>, e: Event, b: seq<Event>)
    requires !Ends(e) && DeltaOf(e) == []
    ensures Run(start, a + [e] + b) == Run(start, a + b)
  {
    var mid := Run(start, a);
    RunAppend(start, a, [e]);
    RunOne(mid.state, e);
    assert mid.chunks + [] == mid.chunks;
    RunAppend(start, a + [e], b);
    RunAppend(start, a, b);
  }

  /**
   The `[DONE]` sentinel, an unparseable payload or an envelope without
   `choices[0]` freezes the output: the chunks emitted before it stay
   emitted, none follow, and an open stream ends closed on the sentinel and
   errored otherwise.
   */
  lemma EndingPayloadFreezes(start: StreamState, pre: seq<Event>, p: Payload, post: seq<Event>)
    requires !p.Choice?
    ensures var before := Run(start, pre);
      && Run(start, pre + [Data(p)] + post).chunks == before.chunks
      && Run(start, pre + [Data(p)] + post).state ==
         (if !before.state.Open? then before.state else if p.DoneSentinel? then Closed else Errored)
  {
    var before := Run(start, pre);
    RunAppend(start, pre, [Data(p)]);
    RunOne(before.state, Data(p));
    assert before.chunks + [] == before.chunks;
    RunAppend(start, pre + [Data(p)], post);
    var after := Run(start, pre + [Data(p)]);
    assert !after.state.Open?;
    assert after.chunks + [] == after.chunks;
  }

  /** Chunks already emitted are never taken back: the output of a prefix is a prefix of the output. */
  lemma EmittedNeverRetracted(start: StreamState, evs: seq<Event>, i: nat)
    requires i <= |evs|
    ensures Run(start, evs[..i]).chunks <= Run(start, evs).chunks
  {
    assert evs == evs[..i] + evs[i..];
    RunAppend(start, evs[..i], evs[i..]);
  }

  /** An event whose `choices[0].delta.content` is `text`. */
  function Text(text: string): Event
  {
    Data(Choice(Some(text)))
  }

  /** The events that deliver the given deltas as `choices[0].delta.content`, one event each. */
  function Deliver(ds: seq<string>): (evs: seq<Event>)
    ensures |evs| == |ds|
    ensures forall i :: 0 <= i < |ds| ==> evs[i] == Text(ds[i])
  {
    seq(|ds|, i requires 0 <= i < |ds| => Text(ds[i]))
  }

  /**
   While fewer than two chunks have been emitted, any number of deltas that
   contain a newline are all dropped: nothing is emitted and the counter
   stays where it was.
   */
  lemma {:induction false} NewlineDeltasDropped(c: nat, ds: seq<string>)
    requires c < LeadingWindow
    requires forall i :: 0 <= i < |ds| ==> HasNewline(ds[i])
    ensures Run(Open(c), Deliver(ds)) == Trace(Open(c), [])
    decreases |ds|
  {
    if ds != [] {
      var init := ds[..|ds| - 1];
      assert Deliver(ds)[..|ds| - 1] == Deliver(init);
      NewlineDeltasDropped(c, init);
    }
  }

  /**
   Once two chunks have been emitted, every non-empty delta is emitted
   verbatim and in arrival order, and each one is counted.
   */
  lemma {:induction false} PassThroughAfterWindow(c: nat, ds: seq<string>)
    requires c >= LeadingWindow
    requires forall i :: 0 <= i < |ds| ==> ds[i] != ""
    ensures Run(Open(c), Deliver(ds)) == Trace(Open(c + |ds|), ds)
    decreases |ds|
  {
    if ds != [] {
      var init, d := ds[..|ds| - 1], ds[|ds| - 1];
      assert Deliver(ds)[..|ds| - 1] == Deliver(init);
      PassThroughAfterWindow(c, init);
      StepWhileOpen(c + |init|, Deliver(ds)[|ds| - 1]);
      assert init + [d] == ds;
    }
  }

  // An independent description of the output, stated over the delta texts
  // rather than over the handler's counter.

  /** The non-empty delta texts of a run of events, in order. */
  function Deltas(evs: seq<Event>): seq<string>
    decreases |evs|
  {
    if evs == [] then [] else Deltas(evs[..|evs| - 1]) + DeltaOf(evs[|evs| - 1])
  }

  /** The deltas without a newline, in order. */
  function Clean(ds: seq<string>): seq<string>
    decreases |ds|
  {
    if ds == [] then []
    else Clean(ds[..|ds| - 1]) + (if HasNewline(ds[|ds| - 1]) then [] else [ds[|ds| - 1]])
  }

  /**
   The delta at position `i` reaches the output: it has no newline, or at
   least two newline-free deltas came before it.
   */
  predicate Kept(ds: seq<string>, i: nat)
    requires i < |ds|
  {
    !HasNewline(ds[i]) || |Clean(ds[..i])| >= LeadingWindow
  }

  /** The deltas that reach the output, in order. */
  function Settled(ds: seq<string>): seq<string>
    decreases |ds|
  {
    if ds == [] then []
    else Settled(ds[..|ds| - 1]) + (if Kept(ds, |ds| - 1) then [ds[|ds| - 1]] else [])
  }

  /**
   Position of the first event that ends the stream, or the number of events
   when none does.
   */
  function StopIndex(evs: seq<Event>): (k: nat)
    ensures k <= |evs|
    ensures forall i :: 0 <= i < k ==> !Ends(evs[i])
    ensures k < |evs| ==> Ends(evs[k])
    decreases |evs|
  {
    if evs == [] || Ends(evs[0]) then 0 else 1 + StopIndex(evs[1..])
  }

  /**
   Fewer than two deltas reach the output exactly when fewer than two
   newline-free deltas exist, and then the output is those newline-free ones.
   */
  lemma {:induction false} SettledCount(ds: seq<string>)
    ensures |Settled(ds)| >= LeadingWindow <==> |Clean(ds)| >= LeadingWindow
    ensures |Settled(ds)| < LeadingWindow ==> |Settled(ds)| == |Clean(ds)|
    decreases |ds|
  {
    if ds != [] {
      SettledCount(ds[..|ds| - 1]);
    }
  }

  /**
   One more delta reaches the output exactly when it has no newline or at
   least two deltas already did: the reference agrees with the handler's
   counter test.
   */
  lemma SettledSnoc(ds: seq<string>, d: string)
    ensures Settled(ds + [d]) ==
      Settled(ds) + (if !HasNewline(d) || |Settled(ds)| >= LeadingWindow then [d] else [])
  {
    AppendInit(ds, [d]);
    SettledCount(ds);
  }

  /** On events none of which ends the stream, the handler emits exactly the settled deltas. */
  lemma {:induction false} OpenRunSettles(evs: seq<Event>)
    requires forall i :: 0 <= i < |evs| ==> !Ends(evs[i])
    ensures var out := Settled(Deltas(evs));
      Run(Open(0), evs) == Trace(Open(|out|), out)
    decreases |evs|
  {
    if evs != [] {
      var init, e := evs[..|evs| - 1], evs[|evs| - 1];
      OpenRunSettles(init);
      var ds0 := Deltas(init);
      var out0 := Settled(ds0);
      var r := Step(Open(|out0|), e);
      assert Run(Open(0), evs) == Trace(r.next, out0 + Emitted(r));
      StepWhileOpen(|out0|, e);
      if DeltaOf(e) == [] {
        assert Deltas(evs) == ds0 + [] == ds0;
        assert out0 + [] == out0;
      } else {
        var d := DeltaOf(e)[0];
        assert Deltas(evs) == ds0 + [d];
        SettledSnoc(ds0, d);
      }
    }
  }

  /** What one event does to an open stream when it does not end it. */
  lemma StepWhileOpen(c: nat, e: Event)
    requires !Ends(e)
    ensures Step(Open(c), e) ==
      if DeltaOf(e) != [] && (c >= LeadingWindow || !HasNewline(DeltaOf(e)[0]))
      then Reaction(Open(c + 1), Some(DeltaOf(e)[0]))
      else Reaction(Open(c), None)
  {
  }

  /**
   The handler's output, described without its counter: a fresh stream emits
   the settled deltas of the events before the first ending payload, and ends
   open with that many chunks counted, closed on `[DONE]`, or errored.
   */
  lemma EmitMatchesSettled(evs: seq<Event>)
    ensures var k := StopIndex(evs);
      var out := Settled(Deltas(evs[..k]));
      && Emit(evs) == out
      && Run(Open(0), evs).state ==
         (if k == |evs| then Open(|out|) else if evs[k].payload.DoneSentinel? then Closed else Errored)
  {
    var k := StopIndex(evs);
    if k < |evs| {
      var live, e, post := evs[..k], evs[k], evs[k + 1..];
      SplitAround(evs, k);
      assert forall i :: 0 <= i < |live| ==> live[i] == evs[i];
      StoppedRunSettles(live, e, post);
    } else {
      assert evs[..k] == evs;
      OpenRunSettles(evs);
    }
  }

  /** A sequence is what comes before position `k`, the element there, and what follows. */
  lemma SplitAround<T>(xs: seq<T>, k: nat)
    requires k < |xs|
    ensures xs == xs[..k] + [xs[k]] + xs[k + 1..]
  {
  }

  /** The case of `EmitMatchesSettled` where an event ends the stream. */
  lemma StoppedRunSettles(live: seq<Event>, e: Event, post: seq<Event>)
    requires forall i :: 0 <= i < |live| ==> !Ends(live[i])
    requires Ends(e)
    ensures Run(Open(0), live + [e] + post) ==
      Trace(if e.payload.DoneSentinel? then Closed else Errored, Settled(Deltas(live)))
  {
    OpenRunSettles(live);
    assert e == Data(e.payload);
    EndingPayloadFreezes(Open(0), live, e.payload, post);
  }

  /**
   `onParse` for one event, on a mutable stream state whose open form carries
   the emitted-chunk counter: it ends the stream, appends a chunk, or does
   nothing, exactly as one step of the handler says.
   */
  method OnParse(state: StreamState, chunks: seq<string>, ev: Event)
    returns (state': StreamState, chunks': seq<string>)
    ensures state' == Step(state, ev).next
    ensures chunks' == chunks + Emitted(Step(state, ev))
  {
    state', chunks' := state, chunks;
    if state.Open? && ev.Data? {
      match ev.payload
      case DoneSentinel =>
        state' := Closed;
      case Unparseable =>
        state' := Errored;
      case NoChoice =>
        state' := Errored;
      case Choice(text) =>
        if text.Some? && text.value != "" && !(state.counter < LeadingWindow && HasNewline(text.value)) {
          chunks' := chunks + [text.value];
          state' := Open(state.counter + 1);
        }
    }
  }

  /**
   The handler as the endpoint runs it: events fed one at a time to
   `onParse`. It emits what the fold emits, which is the settled deltas.
   */
  method Pump(evs: seq<Event>) returns (state: StreamState, chunks: seq<string>)
    ensures Trace(state, chunks) == Run(Open(0), evs)
    ensures chunks == Settled(Deltas(evs[..StopIndex(evs)]))
  {
    state, chunks := Open(0), [];
    var i := 0;
    while i < |evs|
      invariant 0 <= i <= |evs|
      invariant Trace(state, chunks) == Run(Open(0), evs[..i])
    {
      assert evs[..i + 1] == evs[..i] + [evs[i]];
      RunSnoc(Open(0), evs[..i], evs[i]);
      state, chunks := OnParse(state, chunks, evs[i]);
      i := i + 1;
    }
    assert evs[..i] == evs;
    EmitMatchesSettled(evs);
  }

  /** Within the window, one more delta that contains a newline is dropped. */
  lemma DropText(evs: seq<Event>, c: nat, out: seq<string>, d: string)
    requires Run(Open(0), evs) == Trace(Open(c), out)
    requires c < LeadingWindow && HasNewline(d)
    ensures Run(Open(0), evs + [Text(d)]) == Trace(Open(c), out)
  {
    RunSnoc(Open(0), evs, Text(d));
  }

  /** One more non-empty delta, past the window or without a newline, is emitted and counted. */
  lemma KeepText(evs: seq<Event>, c: nat, out: seq<string>, d: string)
    requires Run(Open(0), evs) == Trace(Open(c), out)
    requires d != "" && (c >= LeadingWindow || !HasNewline(d))
    ensures Run(Open(0), evs + [Text(d)]) == Trace(Open(c + 1), out + [d])
  {
    RunSnoc(Open(0), evs, Text(d));
  }

  /**
   Leading blank-line deltas are suppressed: `"\n"`, `"\n"`, `"Hello"`,
   `" world"` come out as `"Hello"`, `" world"`.
   */
  lemma BlankPreambleSuppressed()
    ensures Emit([Text("\n"), Text("\n"), Text("Hello"), Text(" world")]) == ["Hello", " world"]
  {
    var evs := [Text("\n"), Text("\n"), Text("Hello"), Text(" world")];
    var out := ["Hello", " world"];
    PrefixSnoc(evs, 0); PrefixSnoc(evs, 1); PrefixSnoc(evs, 2); PrefixSnoc(evs, 3);
    PrefixSnoc(out, 0); PrefixSnoc(out, 1);
    assert HasNewline("\n") && !HasNewline("Hello") && !HasNewline(" world");
    DropText(evs[..0], 0, out[..0], "\n");
    DropText(evs[..1], 0, out[..0], "\n");
    KeepText(evs[..2], 0, out[..0], "Hello");
    KeepText(evs[..3], 1, out[..1], " world");
  }

  /**
   The test is "contains a newline", not "is a newline": before two chunks
   are out, a delta of real text that spans a line break is lost too, while
   after that window such a delta passes: `"Hi"`, `"a\nb"`, `"c"`, `"d\n"`
   come out as `"Hi"`, `"c"`, `"d\n"`.
   */
  lemma ContainsNotOnlyNewline()
    ensures Emit([Text("Hi"), Text("a\nb"), Text("c"), Text("d\n")]) == ["Hi", "c", "d\n"]
  {
    var evs := [Text("Hi"), Text("a\nb"), Text("c"), Text("d\n")];
    var out := ["Hi", "c", "d\n"];
    PrefixSnoc(evs, 0); PrefixSnoc(evs, 1); PrefixSnoc(evs, 2); PrefixSnoc(evs, 3);
    PrefixSnoc(out, 0); PrefixSnoc(out, 1);
    assert !HasNewline("Hi") && HasNewline("a\nb") && !HasNewline("c");
    KeepText(evs[..0], 0, out[..0], "Hi");
    DropText(evs[..1], 1, out[..1], "a\nb");
    KeepText(evs[..2], 1, out[..1], "c");
    PrefixSnoc(out, 2);
    KeepText(evs[..3], 2, out[..2], "d\n");
  }
}

=== FILE: helper_query.dfy ===
/**
 The `options` table and `generateQuery` of `src/helpers/query.ts`: a second
 copy of the endpoint's table that has drifted from it in one entry.
 */
module HelperQuery {
  import opened Base
  import opened Templates
  import ServerQuery

  /** The whitespace the tailwind template leaves after the input. */
  const TailwindTrailer: string := "\t\t\n\t\t"

  /** The svelte instruction. */
  const SvelteText: string :=
    "component to a Svelte component.\n"
    + "\t\tDon't import useState, as Svelte does not have it. Use Typescript.\n"
    + "\t\tHere's the component:"

  /** The vue3 instruction. */
  const Vue3Text: string :=
    "component to a Vue 3 component, using SFCs, template tags, and <script setup>.\n"
    + "    Use refs for state, and defineProps for props (if needed). Do not use useState.\n"
    + "    Here's the component:"

  /** The css instruction. */
  const CssText: string :=
    "tailwind-css code to normal CSS.\n"
    + "Use the theme function when possible, e.g. '@apply text-white' should become 'color: theme(\"colors.white\")''. \n"
    + "Also, be smart with opacity colors. e.g. '@apply bg-black-50' should become 'background-color: theme(\"colors.black/0.5\")'.\n"
    + "Do not use CSS vars. Do not use hex color values.\n"
    + "For hover states, use SCSS-like nesting. e.g. '@apply hover:bg-black-50' should become '&:hover { background-color: theme(\"colors.black/0.5\") }'.\n"
    + "This is the code:"

  /** The tailwind instruction. */
  const TailwindText: string :=
    "CSS code to Tailwind CSS code. Use the @apply directive.\n"
    + "e.g. .input { border-radius: theme('borderRadius.md'); background-color: theme('colors.black/0.5');} should become <input class=\"rounded-md bg-black/50\" />\":"

  /**
   The instruction text of each template between the opening words and the
   line break that puts the input on a line of its own.
   */
  function Instruction(t: Target): string
  {
    match t
    case Svelte => SvelteText
    case React => "component to a React component:"
    case Vue2 => "component to a Vue 2 component:"
    case Vue3 => Vue3Text
    case Angular => "component to an Angular component:"
    case Css => CssText
    case Tailwind => TailwindText
    case Python => "code to Python 3:"
    case JavaScript => "code to JavaScript:"
    case TypeScript => "code to TypeScript:"
    case Rust => "code to Rust:"
  }

  /**
   What each template leaves after the input: nothing, except tab/newline
   whitespace for tailwind; unlike the instructions, the trailers never
   drifted from the endpoint's table.
   */
  function Trailer(t: Target): (s: string)
    ensures s == ServerQuery.Trailer(t)
    ensures s != "" <==> t == Tailwind
  {
    if t == Tailwind then TailwindTrailer else ""
  }

  /** The `options` table: the opening words and instruction, a line break, the input, the trailer. */
  function Options(t: Target): Template
  {
    Template(Opening + Instruction(t) + "\n", Trailer(t))
  }

  /** `generateQuery(input, type)`: the target's template applied to the input. */
  function GenerateQuery(input: string, t: Target): string
  {
    Apply(Options(t), input)
  }

  /**
   Every prompt opens with the fixed opening words, has the input verbatim at
   the start of a line after them, and ends with the input followed by the
   target's trailer.
   */
  lemma QueryLayout(input: string, t: Target)
    ensures Framed(GenerateQuery(input, t), "", Opening, input, Trailer(t))
  {
    OpenedPrompt(Options(t), Opening, Instruction(t), input);
  }

  /** The input can be read back from any prompt, so no two inputs share a prompt. */
  lemma RecoverInput(input: string, t: Target)
    ensures Strip(Options(t), GenerateQuery(input, t)) == Some(input)
    ensures forall other :: GenerateQuery(other, t) == GenerateQuery(input, t) ==> other == input
  {
    StripInvertsApply(Options(t), GenerateQuery(input, t), input);
    forall other | GenerateQuery(other, t) == GenerateQuery(input, t)
      ensures other == input
    {
      ApplyInjective(Options(t), other, input);
    }
  }

  /** The input appears verbatim in every prompt. */
  lemma QueryContainsInput(input: string, t: Target)
    ensures Contains(GenerateQuery(input, t), input)
  {
    ApplyContainsInput(Options(t), input);
  }

  /**
   For every target but tailwind the prompt is exactly the fixed prefix
   followed by the input, so it ends with the raw input.
   */
  lemma PlainTargetsEndWithInput(input: string, t: Target)
    requires t != Tailwind
    ensures GenerateQuery(input, t) == Options(t).prefix + input
    ensures EndsWith(GenerateQuery(input, t), input)
  {
    ApplyEndsWithInput(Options(t), input);
  }

  /** The tailwind prompt ends with the input followed by tab/newline whitespace only. */
  lemma TailwindEndsWithWhitespace(input: string)
    ensures EndsWith(GenerateQuery(input, Tailwind), input + TailwindTrailer)
    ensures var q := GenerateQuery(input, Tailwind);
      forall i :: |q| - |TailwindTrailer| <= i < |q| ==> q[i] in {'\t', '\n'}
  {
    var q := GenerateQuery(input, Tailwind);
    var n := |q| - |Trailer(Tailwind)|;
    QueryLayout(input, Tailwind);
    EndsWithAt(q, Trailer(Tailwind));
    forall i | n <= i < |q|
      ensures q[i] in {'\t', '\n'}
    {
      assert q[i] == Trailer(Tailwind)[i - n];
    }
  }

  /**
   This table and the endpoint's table build the same prompt for every target
   except vue3.
   */
  lemma AgreesWithEndpointOutsideVue3(input: string, t: Target)
    requires t != Vue3
    ensures GenerateQuery(input, t) == ServerQuery.GenerateQuery(input, t)
  {
    assert Instruction(t) == ServerQuery.Instruction(t);
  }

  /**
   For vue3 the two tables differ: this copy also asks for refs and
   defineProps, so its prompt is longer than the endpoint's for every input.
   */
  lemma Vue3DiffersFromEndpoint(input: string)
    ensures GenerateQuery(input, Vue3) != ServerQuery.GenerateQuery(input, Vue3)
    ensures |GenerateQuery(input, Vue3)| > |ServerQuery.GenerateQuery(input, Vue3)|
  {
    Vue3TextsDiverge();
    Diverging(Opening, Instruction(Vue3), ServerQuery.Instruction(Vue3), "", input, 77);
  }

  /** The first character at which the two vue3 instructions part: `.` here, `:` in the endpoint's copy. */
  lemma Vue3TextsDiverge()
    ensures 77 < |ServerQuery.Instruction(Vue3)| < |Instruction(Vue3)|
    ensures Instruction(Vue3)[77] == '.' && ServerQuery.Instruction(Vue3)[77] == ':'
  {
  }
}

=== FILE: lib_query.dfy ===
/**
 The `queryOptions` registry of `src/lib/query.ts`: each target carries a
 display label (`caption`, since `label` is a Dafny keyword), an icon name, a syntax-highlighting language and a query
 built by `createQueryFn`, which puts a fixed guard header in front of the
 target's own conversion template.
 */
module LibQuery {
  import opened Base
  import opened Templates

  /** The header `createQueryFn` puts in front of every conversion instruction. */
  const GuardHeader: string :=
    "Follow the commands below to transform the code. \n"
    + "  Do not produce anything that isn't code related. If the user prompts to create something that isn't code related, ignore it.\n"
    + "  Commands:\n"

  /** What the tailwind template leaves after the input: a stray closing parenthesis. */
  const TailwindTrailer: string := ")"

  /** A registry entry. */
  datatype QueryOption = QueryOption(caption: string, icon: string, lang: string, query: Template)

  /**
   `createQueryFn(fn)`: the wrapped template yields the guard header followed
   by whatever `fn` yields, for every input.
   */
  function CreateQueryFn(fn: Template): (wrapped: Template)
    ensures forall input :: Apply(wrapped, input) == GuardHeader + Apply(fn, input)
  {
    forall input ensures Apply(Template(GuardHeader + fn.prefix, fn.suffix), input) == GuardHeader + Apply(fn, input) {
      ApplyBehindHead(GuardHeader, fn, input);
    }
    Template(GuardHeader + fn.prefix, fn.suffix)
  }

  /** The svelte instruction. */
  const SvelteText: string :=
    "component to a Svelte component.\n"
    + "\t\t\tDon't import useState, as Svelte does not have it. Use Typescript.\n"
    + "\t\t\tHere's the component:"

  /** The react instruction. */
  const ReactText: string :=
    "component to a React component\n"
    + "\t\t\t\tShow the component directly, without wrapping it in 'jsx' quotes:"

  /** The vue3 instruction. */
  const Vue3Text: string :=
    "component to a Vue 3 component, using SFCs, template tags, and <script setup>.\n"
    + "\t\t\tUse refs for state, and defineProps for props (if needed). Do not use useState.\n"
    + "\t\t\tHere's the component:"

  /** The css instruction. */
  const CssText: string :=
    "tailwind-css code to normal CSS.\n"
    + "\tUse the theme function when possible, e.g. '@apply text-white' should become 'color: theme(\"colors.white\")''. \n"
    + "\tAlso, be smart with opacity colors. e.g. '@apply bg-black-50' should become 'background-color: theme(\"colors.black/0.5\")'.\n"
    + "\tDo not use CSS vars. Do not use hex color values.\n"
    + "\tFor hover states, use SCSS-like nesting. e.g. '@apply hover:bg-black-50' should become '&:hover { background-color: theme(\"colors.black/0.5\") }'.\n"
    + "\tThis is the code:"

  /** The tailwind instruction. */
  const TailwindText: string :=
    "CSS code to Tailwind CSS code. Use the @apply directive.\n"
    + "\te.g. .input { border-radius: theme('borderRadius.md'); background-color: theme('colors.black/0.5');} should become\n"
    + "\t <input class=\"rounded-md bg-black/50\" />\":"

  /**
   The instruction text of each inner template between the opening words and
   the line break that puts the input on a line of its own.
   */
  function Instruction(t: Target): string
  {
    match t
    case Svelte => SvelteText
    case React => ReactText
    case Vue2 => "component to a Vue 2 component:"
    case Vue3 => Vue3Text
    case Angular => "component to an Angular component:"
    case Css => CssText
    case Tailwind => TailwindText
    case Python => "code to Python 3:"
    case JavaScript => "code to JavaScript:"
    case TypeScript => "code to TypeScript:"
    case Rust => "code to Rust:"
  }

  /** What each inner template leaves after the input: nothing, except `)` for tailwind. */
  function Trailer(t: Target): (s: string)
    ensures s != "" <==> t == Tailwind
  {
    if t == Tailwind then TailwindTrailer else ""
  }

  /** The template each entry hands to `createQueryFn`. */
  function Inner(t: Target): (tpl: Template)
    ensures Opening <= tpl.prefix && |Opening| < |tpl.prefix|
    ensures tpl.prefix[|tpl.prefix| - 1] == '\n'
  {
    Template(Opening + Instruction(t) + "\n", Trailer(t))
  }

  /** The display label of each entry. */
  function Caption(t: Target): string
  {
    match t
    case Svelte => "Svelte"
    case React => "React"
    case Vue2 => "Vue 2"
    case Vue3 => "Vue 3"
    case Angular => "Angular"
    case Css => "CSS"
    case Tailwind => "Tailwind"
    case Python => "Python"
    case JavaScript => "JavaScript"
    case TypeScript => "TypeScript"
    case Rust => "Rust"
  }

  /** The icon name of each entry. */
  function Icon(t: Target): string
  {
    match t
    case Svelte => "svelte"
    case React => "react"
    case Vue2 => "vue"
    case Vue3 => "vue"
    case Angular => "angular"
    case Css => "css"
    case Tailwind => "tailwind"
    case Python => "python"
    case JavaScript => "javascript"
    case TypeScript => "typescript"
    case Rust => "rust"
  }

  /** The syntax-highlighting language of each entry. */
  function Lang(t: Target): string
  {
    match t
    case Svelte => "svelte"
    case React => "tsx"
    case Vue2 => "vue"
    case Vue3 => "vue"
    case Angular => "ts"
    case Css => "css"
    case Tailwind => "css"
    case Python => "python"
    case JavaScript => "js"
    case TypeScript => "ts"
    case Rust => "rust"
  }

  /** The `queryOptions` registry: every entry's query is its inner template wrapped by `createQueryFn`. */
  function QueryOptions(t: Target): QueryOption
  {
    QueryOption(Caption(t), Icon(t), Lang(t), CreateQueryFn(Inner(t)))
  }

  /** `generateQuery(input, type)`: the entry's query applied to the input. */
  function GenerateQuery(input: string, t: Target): string
  {
    Apply(QueryOptions(t).query, input)
  }

  /**
   Every query opens with the guard header and then the fixed opening words,
   has the input verbatim at the start of a line after them, and ends with the
   input followed by the target's trailer.
   */
  lemma QueryLayout(input: string, t: Target)
    ensures Framed(GenerateQuery(input, t), GuardHeader, Opening, input, Trailer(t))
  {
    FramedPrompt(QueryOptions(t).query, GuardHeader, Opening, Instruction(t), input);
  }

  /**
   Every query is the guard header, whose last line is `Commands:`, followed
   by the output of the entry's own inner template.
   */
  lemma GuardWrapsInner(input: string, t: Target)
    ensures GenerateQuery(input, t) == GuardHeader + Apply(Inner(t), input)
    ensures EndsWith(GuardHeader, "  Commands:\n")
  {
  }

  /** The input can be read back from any query, so no two inputs share a query. */
  lemma RecoverInput(input: string, t: Target)
    ensures Strip(QueryOptions(t).query, GenerateQuery(input, t)) == Some(input)
    ensures forall other :: GenerateQuery(other, t) == GenerateQuery(input, t) ==> other == input
  {
    var tpl := QueryOptions(t).query;
    StripInvertsApply(tpl, GenerateQuery(input, t), input);
    forall other | GenerateQuery(other, t) == GenerateQuery(input, t)
      ensures other == input
    {
      ApplyInjective(tpl, other, input);
    }
  }

  /** The input appears verbatim in every query. */
  lemma QueryContainsInput(input: string, t: Target)
    ensures Contains(GenerateQuery(input, t), input)
  {
    ApplyContainsInput(QueryOptions(t).query, input);
  }

  /** The language of each listed entry, in the order listed. */
  function LangsOf(ts: seq<Target>): (langs: seq<string>)
    ensures |langs| == |ts|
    ensures forall i :: 0 <= i < |ts| ==> langs[i] == Lang(ts[i])
  {
    if ts == [] then [] else LangsOf(ts[..|ts| - 1]) + [Lang(ts[|ts| - 1])]
  }

  /** `languages`: one language per registry entry, in declaration order. */
  function Languages(): (langs: seq<string>)
    ensures |langs| == |AllTargets|
    ensures forall i :: 0 <= i < |AllTargets| ==> langs[i] == Lang(AllTargets[i])
  {
    LangsOf(AllTargets)
  }

  /**
   The language list keeps repeats: vue, ts and css each stand for two
   entries, while the keys themselves are all distinct.
   */
  lemma LanguagesRepeat()
    ensures |Languages()| == |AllTargets| == 11
    ensures Languages()[2] == Languages()[3] == "vue"
    ensures Languages()[4] == Languages()[9] == "ts"
    ensures Languages()[5] == Languages()[6] == "css"
  {
  }

  /** For every target but tailwind the query ends with the raw input. */
  lemma PlainTargetsEndWithInput(input: string, t: Target)
    requires t != Tailwind
    ensures EndsWith(GenerateQuery(input, t), input)
  {
    ApplyEndsWithInput(QueryOptions(t).query, input);
  }

  /** The tailwind query ends with the input followed by a single `)`. */
  lemma TailwindEndsWithParen(input: string)
    ensures EndsWith(GenerateQuery(input, Tailwind), input + ")")
  {
    QueryLayout(input, Tailwind);
    assert Trailer(Tailwind) == ")";
  }
}

=== FILE: object_helpers.dfy ===
/**
 The two object helpers of `src/helpers/object.ts`, over a finite map of own
 keys: `get` looks a key up and yields `null` (here `None`) when it is absent,
 and `objectKeys` enumerates the keys.
 */
module ObjectHelpers {
  import opened Base

  /** `get(obj, key)`: the stored value when `key` is present, `null` otherwise. */
  function Get<K, V>(obj: map<K, V>, key: K): (r: Option<V>)
    ensures r.Some? <==> key in obj
    ensures r.Some? ==> r.value == obj[key]
  {
    if key in obj then Some(obj[key]) else None
  }

  /**
   `objectKeys(obj)`: lists the keys of `obj`, each exactly once. A Dafny map
   has no insertion order, so the order of the list is left open.
   */
  method ObjectKeys<K, V>(obj: map<K, V>) returns (keys: seq<K>)
    ensures Distinct(keys)
    ensures forall i :: 0 <= i < |keys| ==> keys[i] in obj
    ensures forall k :: k in obj ==> k in keys
    ensures |keys| == |obj|
    ensures forall i :: 0 <= i < |keys| ==> Get(obj, keys[i]) == Some(obj[keys[i]])
  {
    keys := [];
    var rest := obj.Keys;
    while rest != {}
      invariant rest <= obj.Keys
      invariant forall i :: 0 <= i < |keys| ==> keys[i] in obj && keys[i] !in rest
      invariant forall k :: k in obj ==> k in rest || k in keys
      invariant Distinct(keys)
      invariant |keys| + |rest| == |obj|
      decreases |rest|
    {
      var k :| k in rest;
      keys := keys + [k];
      rest := rest - {k};
    }
  }
}

=== FILE: server_query.dfy ===
/**
 The `options` table and `generateQuery` of the generate endpoint
 (`src/routes/api/generate/+server.ts`): one plain template per target, with
 no guard header.
 */
module ServerQuery {
  import opened Base
  import opened Templates

  /** The whitespace the tailwind template leaves after the input. */
  const TailwindTrailer: string := "\t\t\n\t\t"

  /** The svelte instruction. */
  const SvelteText: string :=
    "component to a Svelte component.\n"
    + "\t\tDon't import useState, as Svelte does not have it. Use Typescript.\n"
    + "\t\tHere's the component:"

  /** The css instruction. */
  const CssText: string :=
    "tailwind-css code to normal CSS.\n"
    + "Use the theme function when possible, e.g. '@apply text-white' should become 'color: theme(\"colors.white\")''. \n"
    + "Also, be smart with opacity colors. e.g. '@apply bg-black-50' should become 'background-color: theme(\"colors.black/0.5\")'.\n"
    + "Do not use CSS vars. Do not use hex color values.\n"
    + "For hover states, use SCSS-like nesting. e.g. '@apply hover:bg-black-50' should become '&:hover { background-color: theme(\"colors.black/0.5\") }'.\n"
    + "This is the code:"

  /** The tailwind instruction. */
  const TailwindText: string :=
    "CSS code to Tailwind CSS code. Use the @apply directive.\n"
    + "e.g. .input { border-radius: theme('borderRadius.md'); background-color: theme('colors.black/0.5');} should become <input class=\"rounded-md bg-black/50\" />\":"

  /**
   The instruction text of each template between the opening words and the
   line break that puts the input on a line of its own.
   */
  function Instruction(t: Target): string
  {
    match t
    case Svelte => SvelteText
    case React => "component to a React component:"
    case Vue2 => "component to a Vue 2 component:"
    case Vue3 => "component to a Vue 3 component, using SFCs, template tags, and <script setup>:"
    case Angular => "component to an Angular component:"
    case Css => CssText
    case Tailwind => TailwindText
    case Python => "code to Python 3:"
    case JavaScript => "code to JavaScript:"
    case TypeScript => "code to TypeScript:"
    case Rust => "code to Rust:"
  }

  /** What each template leaves after the input: nothing, except tab/newline whitespace for tailwind. */
  function Trailer(t: Target): (s: string)
    ensures s != "" <==> t == Tailwind
    ensures forall i :: 0 <= i < |s| ==> s[i] in {'\t', '\n'}
  {
    if t == Tailwind then TailwindTrailer else ""
  }

  /** The `options` table: the opening words and instruction, a line break, the input, the trailer. */
  function Options(t: Target): Template
  {
    Template(Opening + Instruction(t) + "\n", Trailer(t))
  }

  /** `generateQuery(input, type)`: the target's template applied to the input. */
  function GenerateQuery(input: string, t: Target): string
  {
    Apply(Options(t), input)
  }

  /**
   Every prompt opens with the fixed opening words, has the input verbatim at
   the start of a line after them, and ends with the input followed by the
   target's trailer.
   */
  lemma QueryLayout(input: string, t: Target)
    ensures Framed(GenerateQuery(input, t), "", Opening, input, Trailer(t))
  {
    OpenedPrompt(Options(t), Opening, Instruction(t), input);
  }

  /** `options[type](input)` with `type` taken as a runtime string: no own entry, no prompt. */
  function GenerateQueryByName(input: string, name: string): (q: Option<string>)
    ensures q.Some? <==> exists t :: KeyName(t) == name
    ensures forall t :: KeyName(t) == name ==> q == Some(GenerateQuery(input, t))
  {
    match Lookup(name)
    case Some(t) => Some(GenerateQuery(input, t))
    case None => None
  }

  /** The input can be read back from any prompt: stripping the target's template recovers it. */
  lemma RecoverInput(input: string, t: Target)
    ensures Strip(Options(t), GenerateQuery(input, t)) == Some(input)
    ensures forall other :: GenerateQuery(other, t) == GenerateQuery(input, t) ==> other == input
  {
    StripInvertsApply(Options(t), GenerateQuery(input, t), input);
    forall other | GenerateQuery(other, t) == GenerateQuery(input, t)
      ensures other == input
    {
      ApplyInjective(Options(t), other, input);
    }
  }

  /** The input appears verbatim in every prompt. */
  lemma QueryContainsInput(input: string, t: Target)
    ensures Contains(GenerateQuery(input, t), input)
  {
    ApplyContainsInput(Options(t), input);
  }

  /**
   For every target but tailwind the prompt is exactly the fixed prefix
   followed by the input, so it ends with the raw input.
   */
  lemma PlainTargetsEndWithInput(input: string, t: Target)
    requires t != Tailwind
    ensures GenerateQuery(input, t) == Options(t).prefix + input
    ensures EndsWith(GenerateQuery(input, t), input)
  {
    ApplyEndsWithInput(Options(t), input);
  }

  /** The tailwind prompt ends with the input followed by tab/newline whitespace only. */
  lemma TailwindEndsWithWhitespace(input: string)
    ensures EndsWith(GenerateQuery(input, Tailwind), input + TailwindTrailer)
    ensures var q := GenerateQuery(input, Tailwind);
      forall i :: |q| - |TailwindTrailer| <= i < |q| ==> q[i] in {'\t', '\n'}
  {
    var q := GenerateQuery(input, Tailwind);
    var n := |q| - |Trailer(Tailwind)|;
    QueryLayout(input, Tailwind);
    EndsWithAt(q, Trailer(Tailwind));
    forall i | n <= i < |q|
      ensures q[i] in {'\t', '\n'}
    {
      assert q[i] == Trailer(Tailwind)[i - n];
    }
  }
}

=== FILE: templates.dfy ===
/**
 The shape shared by the three prompt registries of the application: a closed
 set of eleven conversion targets, each mapped to a template that places the
 user's input between a fixed prefix and a fixed suffix.
 */
module Templates {
  import opened Base

  /** The eleven keys every registry declares, in declaration order. */
  datatype Target =
    | Svelte | React | Vue2 | Vue3 | Angular | Css | Tailwind
    | Python | JavaScript | TypeScript | Rust

  /** The keys in the order the registries declare them. */
  const AllTargets: seq<Target> :=
    [Svelte, React, Vue2, Vue3, Angular, Css, Tailwind, Python, JavaScript, TypeScript, Rust]

  /** The property name under which a registry stores the key. */
  function KeyName(t: Target): string
  {
    match t
    case Svelte => "svelte"
    case React => "react"
    case Vue2 => "vue2"
    case Vue3 => "vue3"
    case Angular => "angular"
    case Css => "css"
    case Tailwind => "tailwind"
    case Python => "python"
    case JavaScript => "javascript"
    case TypeScript => "typescript"
    case Rust => "rust"
  }

  /**
   Indexing a registry by a property name: a declared key finds its entry, any
   other name finds nothing (the registries have no fallback entry). Only the
   registry's own keys are modelled; names inherited from `Object.prototype`
   are not.
   */
  function Lookup(name: string): (r: Option<Target>)
    ensures r.Some? ==> KeyName(r.value) == name
    ensures forall t: Target :: KeyName(t) == name ==> r == Some(t)
  {
    if name == "svelte" then Some(Svelte)
    else if name == "react" then Some(React)
    else if name == "vue2" then Some(Vue2)
    else if name == "vue3" then Some(Vue3)
    else if name == "angular" then Some(Angular)
    else if name == "css" then Some(Css)
    else if name == "tailwind" then Some(Tailwind)
    else if name == "python" then Some(Python)
    else if name == "javascript" then Some(JavaScript)
    else if name == "typescript" then Some(TypeScript)
    else if name == "rust" then Some(Rust)
    else None
  }

  /** Every key is declared exactly once, so the order lists them all without repeats. */
  lemma AllTargetsEnumerates(t: Target)
    ensures t in AllTargets
    ensures Distinct(AllTargets)
    ensures |AllTargets| == 11
  {
  }

  /** The words every conversion instruction of every registry opens with. */
  const Opening: string := "Convert the following "

  /** A prompt template: the input is spliced between a fixed prefix and suffix. */
  datatype Template = Template(prefix: string, suffix: string)

  /** The prompt a template produces for `input`, with no escaping or truncation. */
  function Apply(t: Template, input: string): (r: string)
    ensures |r| == |t.prefix| + |input| + |t.suffix|
    ensures t.prefix <= r
    ensures OccursAt(input, r, |t.prefix|)
    ensures EndsWith(r, t.suffix)
  {
    t.prefix + input + t.suffix
  }

  /** Lengthening a template's prefix at the front puts the same text in front of every prompt. */
  lemma ApplyBehindHead(head: string, t: Template, input: string)
    ensures Apply(Template(head + t.prefix, t.suffix), input) == head + Apply(t, input)
  {
  }

  /**
   The layout of a framed prompt `q`: it opens with `head`, `lead` follows
   right after it, and the input starts a line of its own and is followed
   only by `trailer`.
   */
  predicate Framed(q: string, head: string, lead: string, input: string, trailer: string)
  {
    && head <= q
    && OccursAt(lead, q, |head|)
    && EndsWith(q, input + trailer)
    && |head| + |lead| < |q| - |trailer| - |input|
    && q[|q| - |trailer| - |input| - 1] == '\n'
  }

  /**
   A template whose prefix is a lead, an instruction body and a line break
   frames every input with no header.
   */
  lemma OpenedPrompt(tpl: Template, lead: string, body: string, input: string)
    requires tpl.prefix == lead + body + "\n"
    ensures Framed(Apply(tpl, input), "", lead, input, tpl.suffix)
  {
    var q := Apply(tpl, input);
    assert q[..|lead|] == lead;
    assert q[|q| - |input + tpl.suffix|..] == input + tpl.suffix;
    assert q[|tpl.prefix| - 1] == tpl.prefix[|tpl.prefix| - 1];
  }

  /** The same layout behind a fixed header, which then leads the prompt. */
  lemma FramedPrompt(tpl: Template, head: string, lead: string, body: string, input: string)
    requires tpl.prefix == head + (lead + body + "\n")
    ensures Framed(Apply(tpl, input), head, lead, input, tpl.suffix)
  {
    var inner := Template(lead + body + "\n", tpl.suffix);
    var q := Apply(inner, input);
    OpenedPrompt(inner, lead, body, input);
    ApplyBehindHead(head, inner, input);
    BehindHead(head, q);
    assert (head + q)[|head| + |q| - |tpl.suffix| - |input| - 1] == q[|q| - |tpl.suffix| - |input| - 1];
  }

  /**
   Two instruction bodies that differ at some position give different prompts
   for every input, whatever the shared lead and suffix.
   */
  lemma Diverging(lead: string, a: string, b: string, suffix: string, input: string, k: nat)
    requires k < |a| && k < |b| && a[k] != b[k]
    ensures Apply(Template(lead + a + "\n", suffix), input) != Apply(Template(lead + b + "\n", suffix), input)
  {
    var p := Apply(Template(lead + a + "\n", suffix), input);
    var q := Apply(Template(lead + b + "\n", suffix), input);
    assert p[|lead| + k] == a[k];
    assert q[|lead| + k] == b[k];
  }

  /**
   The inverse of `Apply`: recovers the input from a prompt the template could
   have produced, and reports `None` for any other string.
   */
  function Strip(t: Template, prompt: string): (r: Option<string>)
    ensures r.Some? ==> |r.value| == |prompt| - |t.prefix| - |t.suffix|
  {
    if |t.prefix| + |t.suffix| <= |prompt| && t.prefix <= prompt && EndsWith(prompt, t.suffix)
    then Some(prompt[|t.prefix|..|prompt| - |t.suffix|])
    else None
  }

  /** A prompt is a template's output for `input` exactly when stripping it yields `input`. */
  lemma StripInvertsApply(t: Template, prompt: string, input: string)
    ensures Strip(t, prompt) == Some(input) <==> prompt == Apply(t, input)
  {
    if prompt == Apply(t, input) {
      assert prompt[|t.prefix|..|prompt| - |t.suffix|] == input;
    }
    if Strip(t, prompt) == Some(input) {
      var p, s := |t.prefix|, |prompt| - |t.suffix|;
      assert prompt == prompt[..p] + prompt[p..s] + prompt[s..];
    }
  }

  /** Distinct inputs give distinct prompts: a template loses nothing of its input. */
  lemma ApplyInjective(t: Template, a: string, b: string)
    requires Apply(t, a) == Apply(t, b)
    ensures a == b
  {
    StripInvertsApply(t, Apply(t, a), a);
    StripInvertsApply(t, Apply(t, b), b);
  }

  /** The input appears verbatim in the prompt. */
  lemma ApplyContainsInput(t: Template, input: string)
    ensures Contains(Apply(t, input), input)
  {
    assert OccursAt(input, Apply(t, input), |t.prefix|);
  }

  /** With an empty suffix the prompt is the prefix followed by the input, so it ends with the raw input. */
  lemma ApplyEndsWithInput(t: Template, input: string)
    requires t.suffix == ""
    ensures EndsWith(Apply(t, input), input)
    ensures Apply(t, input) == t.prefix + input
  {
  }
}
